=== FILE: README.md ===
# LDAP adapter model

A Dafny model of the LDAP adapter of a Go service. The model covers three parts:

- how the configured directory URL is normalised (`formatURL`);
- the session lifecycle: `NewSession`, `Open`, `Close` and `Bind`;
- the two decision ladders built on the session: `TestConfig` and
  `Authenticate`.

It also covers the search-filter builder (`normalizeFilter`,
`NewFilterBuilder`, `FilterBuilder.And`, `FilterBuilder.String`).

The external directory client (go-ldap plus the standard library's URL
parser) is an oracle, a `Directory.Client` value with total function
fields:

- whether `url.Parse` accepts a text;
- what a dial returns;
- what a bind returns;
- which entries a user search returns.

The filter grammar is an oracle too, a `Filter.FilterCodec` that compiles
text to a packet and decompiles a tree.

Every operation that talks to the directory returns the calls it made, as a
trace of `Directory.Event`s:

- `Dialed`
- `BoundAs`
- `Searched`
- `ClosedConn`

Properties such as "no bind happens" and "the connection is closed on every
path after a successful open" become statements about that trace.

Modules follow the source files:

- `Ldap` models `ldap/ldap.go`.
- `Filter` models `ldap/filter.go`.
- `Auth` models `ldap/auth.go`.
- `Models` models `ldap/models.go`.

Supporting modules:

- `GoStrings` models the parts of Go's `strings` package the adapter uses:
  `TrimSpace` with `unicode.IsSpace`, `Contains`, `Split`, `HasPrefix` and
  `HasSuffix`.
- `GoNet` models `net.SplitHostPort`, following the Go standard library's
  rules including the bracketed form.
- `Directory` holds the oracle, the error values and the events.
- `Wrappers` holds `Option` and `Result`.

Behaviour of the code worth knowing:

- `Authenticate` fills in only `Username`, `Realname` and `Email`. It never
  sets `DN` or `GroupDNList`.
- A failed user bind in `Authenticate` is returned as
  `errors.New(err.Error())`. It is not mapped to `ErrInvalidCredential`, and
  the directory result code is lost. The model returns `Detached(err)`.
- The error from the session factory `ctl.Session` is printed and then
  ignored. The factory is modelled as a total function from the two
  configurations to a session.
- `Close` on a session whose connection was already closed calls the
  connection's `Close` again; go-ldap treats that as harmless. Only a
  session that never connected makes `Close` a no-op.

## Model

| member | source | states |
|---|---|---|
| GoStrings.TrimSpace | ldap/filter.go:46 | The result has no white space at either end, is a slice of the input with white space only on both sides of it, and is empty exactly when the input is all white space (Go's `unicode.IsSpace` set) |
| GoStrings.TrimSpaceOfTrimmed | ldap/filter.go:46 | Text with no white space at either end is left unchanged by trimming |
| GoStrings.TrimSpaceIdempotent | ldap/filter.go:45-54 | Trimming twice gives what trimming once gives |
| GoStrings.Contains | ldap/ldap.go:86 | `strings.Contains`: the text contains the separator iff it occurs at some position |
| GoStrings.HasPrefix | ldap/filter.go:50 | `strings.HasPrefix`: the prefix occurs at position 0 |
| GoStrings.HasSuffix | ldap/filter.go:50 | `strings.HasSuffix`: the suffix occurs ending exactly at the end of the text |
| GoStrings.Split | ldap/ldap.go:87-88 | `strings.Split` at a non-empty separator: joining the pieces with the separator gives back the input; no piece contains the separator; there is exactly one piece iff the separator does not occur; with more than one piece, the first ends at the first occurrence of the separator |
| GoNet.SplitHostPort | ldap/ldap.go:98 | `net.SplitHostPort`: no colon means "missing port"; on success the port holds no colon or bracket and is the text after the last colon, and the input is `host:port` or `[host]:port` |
| GoNet.SplitHostPortPlain | ldap/ldap.go:98 | For an address not starting with '[', splitting succeeds iff it has exactly one colon and no bracket |
| GoNet.SplitHostPortOfJoin | ldap/ldap.go:98 | A plain `host + ":" + port` with no colon or bracket in either part splits back into that host and port |
| Ldap.SchemeAndHostPort | ldap/ldap.go:86-95 | Without "://" the whole text is the host-port under `ldap`; with it, success iff the first piece is `ldap` or `ldaps`, otherwise "unknown protocol"; the host-port runs from the first "://" to the end of the input or to the next "://", so `protocol://hostport` is the whole input or is followed by "://" in it (text after a second "://" is dropped) |
| Ldap.ResolvePort | ldap/ldap.go:97-113 | A colon-free host-port gets the protocol's default port; with a colon it is kept if and only if it splits, the port "636" forcing `ldaps` and any other port keeping the protocol; a split failure is reported as an illegal URL carrying the reason; a host-port without "://" still has none afterwards |
| Ldap.FormatEndpoint | ldap/ldap.go:78-113 | A URL that `url.Parse` rejects fails with a parse error; a success has protocol `ldap`/`ldaps`, a colon in the host-port and no "://" in it |
| Ldap.FormatURL | ldap/ldap.go:78-119 | Succeeds exactly when the endpoint normalises, and yields `protocol + "://" + hostport` for it; failures carry the same error |
| Ldap.SplitOfFormattedURL | ldap/ldap.go:115-117 | Splitting a formatted URL at "://" gives exactly two pieces: a valid protocol and a host-port containing a colon |
| Ldap.BareHostGetsLdapDefault | ldap/ldap.go:92-95 | Text with no "://" and no colon becomes `ldap` with ":389" appended |
| Ldap.NoSchemeMeansLdap | ldap/ldap.go:92-105 | Text with no "://" whose host-port splits stays as it is; the protocol is `ldaps` iff the port is "636", otherwise `ldap` |
| Ldap.UnknownSchemeRejected | ldap/ldap.go:86-91 | A declared colon-free scheme other than `ldap`/`ldaps` fails with "unknown protocol", whatever follows it |
| Ldap.FormatExampleUnknownScheme | ldap/ldap.go:89-91 | "foo://host" is refused as an unknown protocol |
| Ldap.DeclaredScheme | ldap/ldap.go:86-88 | Under a declared valid scheme, the host-port is the text after "://", passed on to the port step |
| Ldap.DeclaredSchemeGetsItsDefaultPort | ldap/ldap.go:106-113 | A declared scheme with a colon-free host gets ":389" under `ldap` and ":636" under `ldaps` |
| Ldap.ResolveExplicitPort | ldap/ldap.go:97-105 | A plain `host:port` keeps its text; the protocol becomes `ldaps` iff the port is "636" |
| Ldap.ExplicitPortUnderScheme | ldap/ldap.go:97-105 | An explicit port "636" turns even a declared `ldap` into `ldaps`; any other port keeps the declared scheme and the text |
| Ldap.ResolvePortIdempotent | ldap/ldap.go:97-113 | Once the result of the port step splits, the port step leaves it unchanged: an appended default port matches its protocol, and a port "636" already came with `ldaps` |
| Ldap.AppendedPortKept | ldap/ldap.go:106-113 | An appended default port is read back as that protocol's own port, so the protocol does not change |
| Ldap.ExplicitPortKept | ldap/ldap.go:97-105 | Resolving an explicit port a second time gives the same endpoint |
| Ldap.ResolvedEndpointIsFixed | ldap/ldap.go:97-117 | A normalised endpoint whose host-port splits is a fixed point of the port step |
| Ldap.FormatURLIdempotent | ldap/ldap.go:78-119 | Normalising the output of `formatURL` again yields the same URL, given that `url.Parse` accepts it and its host-port splits |
| Ldap.BracketedHostNotIdempotent | ldap/ldap.go:97-113 | That proviso is needed: a port-less host containing '[' (not at its start) is accepted with ":389" appended, but the output then fails to normalise |
| Ldap.DefaultPortNumber | ldap/ldap.go:107-112 | The default port is "389" for `ldap` and "636" for `ldaps`, so it is "636" exactly for `ldaps`; it contains no colon or slash |
| Ldap.DefaultPort | ldap/ldap.go:106-113 | The text appended to a port-less host-port is ":389" under `ldap` and ":636" under `ldaps` |
| Directory.IsErrorWithCode | ldap/ldap.go:124-135 | go-ldap's `IsErrorWithCode`: an error carries a result code only when it is a directory error with exactly that code; an error re-created from its text (`Detached`) carries none |
| Ldap.NewSession | ldap/ldap.go:26-31 | A new session keeps both configurations and has no connection |
| Ldap.Dial | ldap/ldap.go:54-65 | One dial request is issued; on failure the session is unchanged and the dial error is returned; on success the session holds the new connection |
| Ldap.DialParts | ldap/ldap.go:44-68 | A host-port that does not split fails before any dial; otherwise exactly one dial for a valid protocol, TLS iff `ldaps`, with the host as server name, verification skipped iff `VerifyCert` is off, and the configured timeout |
| Ldap.Open | ldap/ldap.go:37-70 | Configuration is preserved; failure leaves the session unchanged; success always holds a live connection after exactly one dial; `Open` never binds or searches |
| Ldap.OpenDialsByProtocol | ldap/ldap.go:38-66 | A URL that does not normalise fails with its error and no dial; otherwise the one dial matches the normalised endpoint (TLS iff `ldaps`, skip-verify iff not `VerifyCert`) and the session connects iff it succeeds |
| Ldap.Close | ldap/ldap.go:72-76 | Without a connection, nothing happens; otherwise the connection is closed, once, and the session is left without a live connection |
| Ldap.CloseAfterFailedOpen | ldap/ldap.go:37-76 | Closing a never-connected session after a failed `Open` leaves it unchanged and calls nothing |
| Ldap.CloseIdempotent | ldap/ldap.go:72-76 | Closing twice leaves the session as closing once |
| Ldap.Bind | ldap/ldap.go:33-35 | Binding records exactly one bind on the session's connection with the given DN and password, and returns the directory's answer |
| Ldap.SearchUser | ldap/auth.go:26 | Searching records exactly one search for the given name on the session's connection, and returns the directory's entries |
| Ldap.ClassifyOpenError | ldap/ldap.go:124-127 | An open failure becomes the server-timeout error iff it carries the network result code, the ping failure otherwise |
| Ldap.CheckSearchIdentity | ldap/ldap.go:129-139 | After a successful open: the close is the last call; an empty search DN is refused without a bind; otherwise one bind as the search identity, and the verdict is invalid-credential iff that bind failed with code 49, success otherwise |
| Ldap.TestSession | ldap/ldap.go:122-123 | The session `TestConfig` opens has the given configuration and an empty group configuration; it is unconnected when opening fails and live after one dial when it succeeds |
| Ldap.FinishTest | ldap/ldap.go:123-139 | Success iff no error; an open failure is classified and nothing more is called; after a successful open the dial is followed by the close alone for an empty search DN (empty-search-DN error), or by one bind as the search identity and the close, with invalid-credential exactly for a code-49 rejection and success for any other bind outcome |
| Ldap.TestConfig | ldap/ldap.go:121-140 | Success iff no error; an open failure is classified and nothing else is called; after a successful open the verdict is that of the search-identity check |
| Ldap.TestConfigBindsOnlyWithSearchDn | ldap/ldap.go:123-133 | `TestConfig` never searches, and binds only when the session opened and the search DN is non-empty |
| Ldap.TestConfigAfterOpen | ldap/ldap.go:129-139 | After a successful open: the last call closes the connection; an empty search DN gives the empty-search-DN error after only the dial and the close; an invalid-credentials bind gives the invalid-credential error; any other bind outcome gives success |
| Filter.NormalizeFilter | ldap/filter.go:45-54 | The result is "" iff the input is blank; otherwise it starts with "(" and ends with ")"; it is the trimmed input itself iff that is blank or already parenthesised, and otherwise the trimmed input wrapped in one pair |
| Filter.Parenthesise | ldap/filter.go:50-53 | On trimmed non-blank text: kept iff already parenthesised, else wrapped once; the result is always parenthesised and trimmed |
| Filter.NormalizeFilterIdempotent | ldap/filter.go:45-54 | Normalising twice gives what normalising once gives |
| Filter.NewFilterBuilder | ldap/filter.go:13-23 | Blank text gives the empty builder and no error; otherwise the error is the invalid-filter error iff compiling the normalised text fails, with the empty builder, and on success the builder holds the compiled packet |
| Filter.BlankFilterSkipsCompiler | ldap/filter.go:14-17 | On blank text the outcome does not depend on the compiler at all |
| Filter.CompilerSeesNormalizedText | ldap/filter.go:14-18 | The outcome depends on the compiler only through what it does with the normalised text |
| Filter.And | ldap/filter.go:25-36 | The empty builder is a left and right identity; two non-empty builders become an AND node with the receiver on the left and the argument on the right; well-formedness is preserved |
| Filter.AndConjuncts | ldap/filter.go:32-35 | An AND requires exactly the compiled filters of the left operand followed by those of the right |
| Filter.AndRequiresBoth | ldap/filter.go:25-36 | An entry satisfies an AND iff it satisfies both operands |
| Filter.AndAssociative | ldap/filter.go:25-36 | Nested ANDs require the same filters whichever way they are grouped |
| Filter.SatisfiesAllConjuncts | ldap/filter.go:32-35 | An entry satisfies a builder iff it satisfies every compiled filter in it |
| Filter.EmptyIffNoConjuncts | ldap/filter.go:26-31 | A well-formed builder is empty iff it requires no filter |
| Filter.FailedBuilderAddsNoConstraint | ldap/filter.go:19-21 | The builder returned with the invalid-filter error is an identity for AND on both sides |
| Filter.String | ldap/filter.go:38-43 | The empty builder renders as "" without error; any other builder as the library's decompilation |
| Auth.UserFromEntry | ldap/auth.go:46-52 | The user has the entry's username and real name verbatim, the e-mail trimmed of surrounding white space, and an empty DN and group list |
| Auth.AfterOpen | ldap/auth.go:24-52 | The search is for the untrimmed principal; a search error, zero entries or several entries each fail after exactly one search followed by the close, with no bind; one entry leads to exactly one bind with its DN and the password; a bind error is returned stripped of its code, success returns the assembled user; the close is the last call on every path |
| Auth.Authenticate | ldap/auth.go:10-53 | A blank principal fails before any directory call; an open failure is returned as is, with no bind or search; otherwise the dial is followed by the post-open flow |
| Auth.LoginFrom | ldap/auth.go:20-52 | What follows the open: its error returned as is, or the dial followed by the post-open flow |
| Auth.SuccessMeansAcceptedBind | ldap/auth.go:40-52 | A successful login means the principal was non-blank, the open succeeded, exactly one entry was found, the bind used its DN and the password and was accepted, and the user is assembled from that entry |
| Auth.LoginSuccess | ldap/auth.go:40-52 | The same, for any opened session |
| Auth.ClosedAfterOpen | ldap/auth.go:24 | Once the session opened, the last call of the login closes its connection |
| Auth.BlankPrincipalIgnoresDirectory | ldap/auth.go:11-15 | For a blank principal the result is the same whatever the session factory and directory do |
| Auth.BindFailureLosesCode | ldap/auth.go:26-43 | When exactly one entry is found and the directory rejects its bind, the login fails with an error that does not carry the invalid-credentials code, whatever the rejection's code was |

## Left out

- `url.Parse` is an oracle, `Client.urlParses`. Its grammar belongs to the
  Go standard library.
- The directory's I/O is an oracle: dialling, TLS handshakes, binding and
  searching. Only the requests issued and their outcomes are modelled.
- BER packet encoding and the filter grammar are oracles:
  `goldap.CompileFilter`, `goldap.DecompileFilter` and `ber.Encode`. A
  compiled filter is an opaque `Packet`, and an AND node is a tree node.
- The process-wide `goldap.DefaultTimeout` assignment in `Open` is not
  modelled as global state. The configured timeout travels inside the dial
  request instead.
- The multiplication of the timeout into a `time.Duration` is not modelled,
  so its 64-bit overflow is not either.
- Go strings are byte strings; the model's strings are sequences of Unicode
  code points, so a principal, filter or URL that is not valid UTF-8 cannot
  be represented. For valid UTF-8 the behaviour is the same, since every
  separator is ASCII and `GoStrings.IsSpace` is `unicode.IsSpace`.
- Logging (`fmt.Print*`) and the `context.Context` parameters are left out.
- `Session.SearchUser` is an oracle on the session's connection. Its body is
  not part of this model, so username escaping, the empty-name wildcard and
  attribute mapping are left out.
- `ldap/service.go` and `ldap/controller.go` are left out. They only
  delegate: the service opens a session, searches and copies fields, and
  the controller's `Ping` calls `TestConfig`. The controller's session
  factory is the `sessionFor` parameter of `Auth.Authenticate`.
- Ldap.Bind and Ldap.SearchUser require a session that has a connection.
  Every call site in the source follows a successful `Open`
  (ldap/auth.go:26, ldap/auth.go:41, ldap/ldap.go:134, ldap/service.go:30),
  so a call on a session that never connected is not modelled.
- Ldap.DialParts returns no error and no connection for a protocol other
  than `ldap`/`ldaps`, as the Go switch without a default does.
  `Ldap.SplitOfFormattedURL` shows that `Open` never reaches that case.
- Error texts are not modelled. Each error is a constructor of
  `Directory.Error`. `IllegalUrl` and `Detached` keep their cause;
  `UrlParse` has none, since `url.Parse` is an accept/reject oracle.

=== FILE: auth.dfy ===
/** The login flow: reject a blank principal, open a session, find exactly
    one entry for the principal, bind as that entry, and return the user. */
module Auth {
  import opened Wrappers
  import opened GoStrings
  import opened Models
  import opened Directory
  import opened Ldap

  /** What `Authenticate` returns (a user or an error; Go's nil user is the
      `Failure` case) and the directory calls it made. */
  datatype AuthOutcome = AuthOutcome(user: Result<User, Error>, trace: seq<Event>)

  /** The user record assembled from the one entry found: name fields copied
      as they are, e-mail trimmed, and nothing else filled in. */
  function UserFromEntry(entry: User): (u: User)
    ensures u.username == entry.username && u.realname == entry.realname
    ensures Trimmed(u.email) && exists lo :: SpaceFramed(entry.email, u.email, lo)
    ensures u.dn == "" && u.groupDnList == []
  {
    EmptyUser.(username := entry.username, realname := entry.realname, email := TrimSpace(entry.email))
  }

  /** The steps of `Authenticate` after the session opened: search for the
      untrimmed principal, demand exactly one entry, bind as it with the
      password, then assemble the user. The deferred close is the last
      call on every path. */
  function AfterOpen(s: Session, m: AuthModel, client: Client): (r: AuthOutcome)
    requires s.state.Live?
    ensures |r.trace| >= 2
    ensures r.trace[0] == Searched(s.state.conn, m.principal)
    ensures r.trace[|r.trace| - 1] == ClosedConn(s.state.conn)
    ensures
      var found := client.searchUser(s.state.conn, m.principal);
      var searchOnly := [Searched(s.state.conn, m.principal), ClosedConn(s.state.conn)];
      && (found.Failure? ==> r.user == Failure(found.error) && r.trace == searchOnly && NoBind(r.trace))
      && (found.Success? && |found.value| == 0 ==>
            r.user == Failure(NotFoundEntry) && r.trace == searchOnly && NoBind(r.trace))
      && (found.Success? && |found.value| > 1 ==>
            r.user == Failure(MultipleEntries) && r.trace == searchOnly && NoBind(r.trace))
      && (found.Success? && |found.value| == 1 ==>
            var entry := found.value[0];
            var bindErr := client.bind(s.state.conn, entry.dn, m.password);
            && r.trace == [Searched(s.state.conn, m.principal),
                           BoundAs(s.state.conn, entry.dn, m.password),
                           ClosedConn(s.state.conn)]
            && (bindErr.Some? ==> r.user == Failure(Detached(bindErr.value)))
            && (bindErr.None? ==> r.user == Success(UserFromEntry(entry))))
  {
    var (_, closing) := Close(s);
    var (found, searching) := SearchUser(s, m.principal, client);
    match found
    case Failure(e) => AuthOutcome(Failure(e), searching + closing)
    case Success(ldapUsers) =>
      if |ldapUsers| == 0 then AuthOutcome(Failure(NotFoundEntry), searching + closing)
      else if |ldapUsers| != 1 then AuthOutcome(Failure(MultipleEntries), searching + closing)
      else
        var dn := ldapUsers[0].dn;
        var (err, binding) := Bind(s, dn, m.password, client);
        if err.Some? then AuthOutcome(Failure(Detached(err.value)), searching + binding + closing)
        else AuthOutcome(Success(UserFromEntry(ldapUsers[0])), searching + binding + closing)
  }

  /** `Authenticate`. The session comes from `sessionFor`, the controller's
      session factory. A blank principal is refused before any session
      exists; an open failure is returned as is and nothing needs closing;
      after a successful open the flow of `AfterOpen` follows. */
  function Authenticate(m: AuthModel, sessionFor: (LdapConf, GroupConf) -> Session,
                        ldapConf: LdapConf, groupConf: GroupConf, client: Client): (r: AuthOutcome)
    ensures AllSpace(m.principal) ==> r == AuthOutcome(Failure(EmptyUserId), [])
    ensures !AllSpace(m.principal) ==>
      var o := Open(sessionFor(ldapConf, groupConf), client);
      && (o.err.Some? ==>
            r.user == Failure(o.err.value) && r.trace == o.trace && NoBind(r.trace) && NoSearch(r.trace))
      && (o.err.None? ==>
            |r.trace| >= 3 && r.trace[..1] == o.trace
            && r.trace[1..] == AfterOpen(o.session, m, client).trace
            && r.user == AfterOpen(o.session, m, client).user)
  {
    var p := m.principal;
    if |TrimSpace(p)| == 0 then AuthOutcome(Failure(EmptyUserId), [])
    else LoginFrom(Open(sessionFor(ldapConf, groupConf), client), m, client)
  }

  /** What `Authenticate` makes of the outcome of opening its session. */
  function LoginFrom(o: Opened, m: AuthModel, client: Client): (r: AuthOutcome)
    requires o.err.None? ==> o.session.state.Live? && |o.trace| == 1
    ensures o.err.Some? ==> r == AuthOutcome(Failure(o.err.value), o.trace)
    ensures o.err.None? ==>
      var rest := AfterOpen(o.session, m, client);
      && |r.trace| >= 3 && r.trace[..1] == o.trace && r.trace[1..] == rest.trace
      && r.user == rest.user
  {
    if o.err.Some? then AuthOutcome(Failure(o.err.value), o.trace)
    else
      var rest := AfterOpen(o.session, m, client);
      assert (o.trace + rest.trace)[1..] == rest.trace;
      AuthOutcome(rest.user, o.trace + rest.trace)
  }

  /** A successful login bound exactly once, as the one entry found for the
      principal, with the supplied password, and the directory accepted it. */
  lemma SuccessMeansAcceptedBind(m: AuthModel, sessionFor: (LdapConf, GroupConf) -> Session,
                                 ldapConf: LdapConf, groupConf: GroupConf, client: Client)
    requires Authenticate(m, sessionFor, ldapConf, groupConf, client).user.Success?
    ensures
      var r := Authenticate(m, sessionFor, ldapConf, groupConf, client);
      var o := Open(sessionFor(ldapConf, groupConf), client);
      && !AllSpace(m.principal) && o.err.None?
      && var found := client.searchUser(o.session.state.conn, m.principal);
      && found.Success? && |found.value| == 1
      && r.trace[2] == BoundAs(o.session.state.conn, found.value[0].dn, m.password)
      && client.bind(o.session.state.conn, found.value[0].dn, m.password).None?
      && r.user.value == UserFromEntry(found.value[0])
  {
    var o := Open(sessionFor(ldapConf, groupConf), client);
    assert !AllSpace(m.principal);
    LoginSuccess(o, m, client);
  }

  /** `SuccessMeansAcceptedBind` for any opened session. */
  lemma LoginSuccess(o: Opened, m: AuthModel, client: Client)
    requires o.err.None? ==> o.session.state.Live? && |o.trace| == 1
    requires LoginFrom(o, m, client).user.Success?
    ensures
      var r := LoginFrom(o, m, client);
      && o.err.None?
      && var found := client.searchUser(o.session.state.conn, m.principal);
      && found.Success? && |found.value| == 1
      && r.trace[2] == BoundAs(o.session.state.conn, found.value[0].dn, m.password)
      && client.bind(o.session.state.conn, found.value[0].dn, m.password).None?
      && r.user.value == UserFromEntry(found.value[0])
  {
    var r := LoginFrom(o, m, client);
    var rest := AfterOpen(o.session, m, client);
    assert r.user == rest.user && r.trace[2] == rest.trace[1];
  }

  /** Once the session opened, the last directory call of the login is
      closing that session's connection, whatever the outcome. */
  lemma ClosedAfterOpen(m: AuthModel, sessionFor: (LdapConf, GroupConf) -> Session,
                        ldapConf: LdapConf, groupConf: GroupConf, client: Client)
    requires !AllSpace(m.principal)
    requires Open(sessionFor(ldapConf, groupConf), client).err.None?
    ensures
      var r := Authenticate(m, sessionFor, ldapConf, groupConf, client);
      var c := Open(sessionFor(ldapConf, groupConf), client).session.state.conn;
      |r.trace| >= 3 && r.trace[|r.trace| - 1] == ClosedConn(c)
  {
  }

  /** The login result depends on the principal only through the directory:
      a blank principal gives the same refusal whatever the session factory
      and directory do. */
  lemma BlankPrincipalIgnoresDirectory(m: AuthModel,
                                       f1: (LdapConf, GroupConf) -> Session, f2: (LdapConf, GroupConf) -> Session,
                                       ldapConf: LdapConf, groupConf: GroupConf, c1: Client, c2: Client)
    requires AllSpace(m.principal)
    ensures Authenticate(m, f1, ldapConf, groupConf, c1) == Authenticate(m, f2, ldapConf, groupConf, c2)
  {
  }

  /** A rejected bind of the one entry found is reported as a fresh error
      carrying only the text, so even an invalid-credentials rejection can
      no longer be recognised by its code. */
  lemma BindFailureLosesCode(s: Session, m: AuthModel, client: Client)
    requires s.state.Live?
    requires var found := client.searchUser(s.state.conn, m.principal);
      && found.Success? && |found.value| == 1
      && client.bind(s.state.conn, found.value[0].dn, m.password).Some?
    ensures AfterOpen(s, m, client).user.Failure?
    ensures !IsErrorWithCode(AfterOpen(s, m, client).user.error, LDAPResultInvalidCredentials)
  {
  }
}

=== FILE: directory.dfy ===
/** The external directory client (go-ldap plus the standard library's URL
    parser) seen as an oracle, the errors that cross the adapter's
    boundary, and the directory calls an operation performs. */
module Directory {
  import opened Wrappers
  import opened Models
  import GoNet

  /** go-ldap's `ErrorNetwork` result code, which the library attaches to
      its dial failures. The `dial` oracle below may fail with any error,
      which is deliberately more general than the library. */
  const ErrorNetwork := 200
  /** go-ldap's `LDAPResultInvalidCredentials` result code. */
  const LDAPResultInvalidCredentials := 49

  /** Errors an operation of the adapter can return. */
  datatype Error =
    | UrlParse                               // url.Parse rejected the configured URL
    | UnknownProtocol                        // a scheme other than ldap/ldaps
    | IllegalUrl(cause: GoNet.AddrReason)    // formatURL's SplitHostPort failure, text-wrapped
    | Addr(reason: GoNet.AddrReason)         // Open's SplitHostPort failure, unwrapped
    | Ldap(code: int)                        // a *goldap.Error with its result code
    | ServerTimeout                          // ErrLDAPServerTimeout
    | PingFail                               // ErrLDAPPingFail
    | EmptySearchDN                          // ErrEmptySearchDN
    | InvalidCredential                      // ErrInvalidCredential
    | InvalidFilter                          // ErrInvalidFilter
    | EmptyUserId                            // "Empty user id"
    | NotFoundEntry                          // "Not found an entry"
    | MultipleEntries                        // "Multiple entries found"
    | Detached(inner: Error)                 // errors.New(inner.Error()): same text, no type

  /** go-ldap's `IsErrorWithCode`: the error is a directory error carrying
      exactly this result code. An error re-created from its text is not. */
  predicate IsErrorWithCode(e: Error, code: int)
    ensures IsErrorWithCode(e, code) <==> e == Ldap(code)
    ensures e.Detached? ==> !IsErrorWithCode(e, code)
  {
    e.Ldap? && e.code == code
  }

  /** An established directory connection, known by an identity only. */
  datatype Conn = Conn(id: nat)

  /** A dial request: plain TCP, or TLS with the server name to verify and
      whether certificate verification is skipped. The timeout is the
      configured connection timeout in seconds. */
  datatype DialRequest =
    | Plain(hostport: string, timeoutSeconds: int)
    | Tls(hostport: string, serverName: string, insecureSkipVerify: bool, timeoutSeconds: int)

  /** One call into the directory client, recorded in an operation's trace. */
  datatype Event =
    | Dialed(request: DialRequest)
    | BoundAs(conn: Conn, dn: string, password: string)
    | Searched(conn: Conn, username: string)
    | ClosedConn(conn: Conn)

  /** The directory as an oracle: whatever the network and server answer is
      a function of the request. */
  datatype Client = Client(
    urlParses: string -> bool,
    dial: DialRequest -> Result<Conn, Error>,
    bind: (Conn, string, string) -> Option<Error>,
    searchUser: (Conn, string) -> Result<seq<User>, Error>)

  /** No event of the trace is a bind. */
  predicate NoBind(trace: seq<Event>) {
    forall e :: e in trace ==> !e.BoundAs?
  }

  /** No event of the trace is a search. */
  predicate NoSearch(trace: seq<Event>) {
    forall e :: e in trace ==> !e.Searched?
  }

  /** A concatenated trace makes no bind exactly when neither part does. */
  lemma NoBindConcat(a: seq<Event>, b: seq<Event>)
    ensures NoBind(a + b) <==> NoBind(a) && NoBind(b)
  {
    assert forall e :: e in a + b <==> e in a || e in b;
  }

  /** A concatenated trace makes no search exactly when neither part does. */
  lemma NoSearchConcat(a: seq<Event>, b: seq<Event>)
    ensures NoSearch(a + b) <==> NoSearch(a) && NoSearch(b)
  {
    assert forall e :: e in a + b <==> e in a || e in b;
  }
}

=== FILE: filter.dfy ===
/** Search-filter construction: normalising filter text, compiling it through
    the directory library, and composing compiled filters with AND. */
module Filter {
  import opened Wrappers
  import opened GoStrings
  import opened Directory

  /** A compiled filter packet as the directory library returns it; its
      inner structure is the library's business. */
  datatype Packet = Packet(id: nat)

  /** A filter builder: the empty filter (a nil packet, no constraint), one
      compiled filter, or the AND of two builders. */
  datatype FilterBuilder = Empty | Compiled(packet: Packet) | AndOf(left: FilterBuilder, right: FilterBuilder)

  /** The library's filter grammar: compiling text to a packet, and
      rendering a tree back to text. */
  datatype FilterCodec = FilterCodec(
    compile: string -> Result<Packet, Error>,
    decompile: FilterBuilder -> Result<string, Error>)

  /** An AND node never has the empty filter as a child. */
  predicate WellFormed(f: FilterBuilder) {
    match f
    case Empty => true
    case Compiled(_) => true
    case AndOf(l, r) => !l.Empty? && !r.Empty? && WellFormed(l) && WellFormed(r)
  }

  /** `normalizeFilter`: trim; blank text becomes "", other text is wrapped
      in one pair of parentheses unless it already starts with "(" and ends
      with ")". */
  function NormalizeFilter(filter: string): (r: string)
    ensures AllSpace(filter) <==> r == ""
    ensures r != "" ==> |r| >= 2 && HasPrefix(r, "(") && HasSuffix(r, ")")
    ensures Trimmed(r)
    ensures r == TrimSpace(filter) || r == "(" + TrimSpace(filter) + ")"
    ensures r == TrimSpace(filter) <==>
      AllSpace(filter) || (HasPrefix(TrimSpace(filter), "(") && HasSuffix(TrimSpace(filter), ")"))
  {
    var norFilter := TrimSpace(filter);
    if |norFilter| == 0 then norFilter
    else Parenthesise(norFilter)
  }

  /** The wrapping step of `normalizeFilter` on trimmed, non-blank text:
      text already in parentheses is kept, other text gets one pair. */
  function Parenthesise(t: string): (r: string)
    requires t != [] && Trimmed(t)
    ensures |r| >= 2 && HasPrefix(r, "(") && HasSuffix(r, ")") && Trimmed(r)
    ensures r == t || r == "(" + t + ")"
    ensures r == t <==> HasPrefix(t, "(") && HasSuffix(t, ")")
  {
    if HasPrefix(t, "(") && HasSuffix(t, ")") then
      assert t[0] == '(' && t[|t| - 1] == ')';
      t
    else
      var r := "(" + t + ")";
      assert |r| == |t| + 2;
      assert r[0] == '(' && r[|r| - 1] == ')';
      assert r[..1] == "(" && r[|r| - 1..] == ")";
      r
  }

  /** Normalising twice gives what normalising once gives. */
  lemma NormalizeFilterIdempotent(filter: string)
    ensures NormalizeFilter(NormalizeFilter(filter)) == NormalizeFilter(filter)
  {
    var r := NormalizeFilter(filter);
    TrimSpaceOfTrimmed(r);
  }

  /** `NewFilterBuilder`: blank text yields the empty builder without
      compiling; otherwise the normalised text is compiled, and a compile
      failure yields the empty builder with `ErrInvalidFilter`. */
  function NewFilterBuilder(filter: string, codec: FilterCodec): (r: (FilterBuilder, Option<Error>))
    ensures WellFormed(r.0)
    ensures r.1.Some? ==> r.0 == Empty && r.1 == Some(InvalidFilter)
    ensures AllSpace(filter) ==> r == (Empty, None)
    ensures !AllSpace(filter) ==>
      && (r.1.Some? <==> codec.compile(NormalizeFilter(filter)).Failure?)
      && (r.1.None? ==> r.0 == Compiled(codec.compile(NormalizeFilter(filter)).value))
  {
    var f := NormalizeFilter(filter);
    if |TrimSpace(f)| == 0 then
      TrimSpaceOfTrimmed(f);
      (Empty, None)
    else
      match codec.compile(f)
      case Failure(_) => (Empty, Some(InvalidFilter))
      case Success(p) => (Compiled(p), None)
  }

  /** Blank filter text never reaches the compiler: any two codecs give the
      same builder. */
  lemma BlankFilterSkipsCompiler(filter: string, c1: FilterCodec, c2: FilterCodec)
    requires AllSpace(filter)
    ensures NewFilterBuilder(filter, c1) == NewFilterBuilder(filter, c2) == (Empty, None)
  {
  }

  /** The compiler sees only the normalised text: codecs that agree on it
      build the same filter. */
  lemma CompilerSeesNormalizedText(filter: string, c1: FilterCodec, c2: FilterCodec)
    requires c1.compile(NormalizeFilter(filter)) == c2.compile(NormalizeFilter(filter))
    ensures NewFilterBuilder(filter, c1) == NewFilterBuilder(filter, c2)
  {
  }

  /** `FilterBuilder.And`: the empty filter is a two-sided identity; two
      non-empty filters become an AND node with the receiver on the left. */
  function And(f: FilterBuilder, filterB: FilterBuilder): (r: FilterBuilder)
    ensures f.Empty? ==> r == filterB
    ensures filterB.Empty? ==> r == f
    ensures !f.Empty? && !filterB.Empty? ==> r.AndOf? && r.left == f && r.right == filterB
    ensures WellFormed(f) && WellFormed(filterB) ==> WellFormed(r)
  {
    if f.Empty? then filterB
    else if filterB.Empty? then f
    else AndOf(f, filterB)
  }

  /** The compiled filters a builder requires, left to right. */
  function Conjuncts(f: FilterBuilder): seq<Packet> {
    match f
    case Empty => []
    case Compiled(p) => [p]
    case AndOf(l, r) => Conjuncts(l) + Conjuncts(r)
  }

  /** Whether an entry satisfies the builder, given which compiled filters
      it satisfies; the empty filter constrains nothing. */
  predicate Satisfies(f: FilterBuilder, holds: Packet -> bool) {
    match f
    case Empty => true
    case Compiled(p) => holds(p)
    case AndOf(l, r) => Satisfies(l, holds) && Satisfies(r, holds)
  }

  /** Every packet of `ps` holds. */
  predicate AllHold(ps: seq<Packet>, holds: Packet -> bool) {
    forall i :: 0 <= i < |ps| ==> holds(ps[i])
  }

  /** All of a concatenation hold exactly when all of both parts hold. */
  lemma AllHoldConcat(a: seq<Packet>, b: seq<Packet>, holds: Packet -> bool)
    ensures AllHold(a + b, holds) <==> AllHold(a, holds) && AllHold(b, holds)
  {
    if AllHold(a, holds) && AllHold(b, holds) {
      forall i | 0 <= i < |a + b| ensures holds((a + b)[i]) {
        if i < |a| {
          assert (a + b)[i] == a[i];
        } else {
          assert (a + b)[i] == b[i - |a|];
        }
      }
    }
    if AllHold(a + b, holds) {
      forall i | 0 <= i < |a| ensures holds(a[i]) {
        assert (a + b)[i] == a[i];
      }
      forall i | 0 <= i < |b| ensures holds(b[i]) {
        assert (a + b)[|a| + i] == b[i];
      }
    }
  }

  /** An entry satisfies a builder exactly when it satisfies every one of
      its compiled filters. */
  lemma {:induction false} SatisfiesAllConjuncts(f: FilterBuilder, holds: Packet -> bool)
    ensures Satisfies(f, holds) <==> AllHold(Conjuncts(f), holds)
  {
    match f
    case Empty =>
    case Compiled(p) =>
      assert Conjuncts(f)[0] == p;
    case AndOf(l, r) =>
      SatisfiesAllConjuncts(l, holds);
      SatisfiesAllConjuncts(r, holds);
      AllHoldConcat(Conjuncts(l), Conjuncts(r), holds);
  }

  /** A well-formed builder is empty exactly when it requires nothing. */
  lemma {:induction false} EmptyIffNoConjuncts(f: FilterBuilder)
    requires WellFormed(f)
    ensures f.Empty? <==> Conjuncts(f) == []
  {
    match f
    case Empty =>
    case Compiled(_) =>
    case AndOf(l, r) =>
      EmptyIffNoConjuncts(l);
      assert |Conjuncts(f)| >= |Conjuncts(l)| > 0;
  }

  /** AND requires both operands' filters, in order, and nothing else. */
  lemma AndConjuncts(f: FilterBuilder, g: FilterBuilder)
    ensures Conjuncts(And(f, g)) == Conjuncts(f) + Conjuncts(g)
  {
  }

  /** An entry satisfies an AND exactly when it satisfies both operands. */
  lemma AndRequiresBoth(f: FilterBuilder, g: FilterBuilder, holds: Packet -> bool)
    ensures Satisfies(And(f, g), holds) <==> Satisfies(f, holds) && Satisfies(g, holds)
  {
  }

  /** AND is associative in what it requires, though not in tree shape. */
  lemma AndAssociative(f: FilterBuilder, g: FilterBuilder, h: FilterBuilder)
    ensures Conjuncts(And(And(f, g), h)) == Conjuncts(And(f, And(g, h)))
  {
    AndConjuncts(f, g);
    AndConjuncts(And(f, g), h);
    AndConjuncts(g, h);
    AndConjuncts(f, And(g, h));
  }

  /** A builder whose text failed to compile is the empty builder, so a
      caller that ignores the error and ANDs it in gets no extra constraint. */
  lemma FailedBuilderAddsNoConstraint(filter: string, codec: FilterCodec, g: FilterBuilder)
    requires NewFilterBuilder(filter, codec).1.Some?
    ensures And(NewFilterBuilder(filter, codec).0, g) == g
    ensures And(g, NewFilterBuilder(filter, codec).0) == g
  {
  }

  /** `FilterBuilder.String`: "" for the empty builder, otherwise the
      library's rendering of the tree. */
  function String(f: FilterBuilder, codec: FilterCodec): (r: Result<string, Error>)
    ensures f.Empty? ==> r == Success("")
    ensures !f.Empty? ==> r == codec.decompile(f)
  {
    if f.Empty? then Success("") else codec.decompile(f)
  }
}

=== FILE: gonet.dfy ===
/** Go's `net.SplitHostPort`, which the endpoint normaliser and the session
    use to separate a host from its port. */
module GoNet {
  import opened Wrappers

  /** The reasons `net.SplitHostPort` reports in its `AddrError`. */
  datatype AddrReason =
    | MissingPort              // "missing port in address"
    | TooManyColons            // "too many colons in address"
    | MissingCloseBracket      // "missing ']' in address"
    | UnexpectedOpenBracket    // "unexpected '[' in address"
    | UnexpectedCloseBracket   // "unexpected ']' in address"

  /** Index of the last `c` in `s`, or -1: Go's `bytealg.LastIndexByteString`. */
  function LastIndexByte(s: string, c: char): (r: int)
    ensures -1 <= r < |s|
    ensures r == -1 <==> c !in s
    ensures r >= 0 ==> s[r] == c && c !in s[r + 1..]
  {
    if |s| == 0 then -1
    else if s[|s| - 1] == c then |s| - 1
    else
      var init := s[..|s| - 1];
      var r := LastIndexByte(init, c);
      assert s == init + [s[|s| - 1]];
      assert c in s <==> c in init;
      assert r >= 0 ==> s[r + 1..] == init[r + 1..] + [s[|s| - 1]];
      r
  }

  /** The last `c` in `a + [c] + b`, with no `c` in `b`, is the one after `a`. */
  lemma {:induction false} LastIndexByteAppend(a: string, c: char, b: string)
    requires c !in b
    ensures LastIndexByte(a + ([c] + b), c) == |a|
    decreases |b|
  {
    var s := a + ([c] + b);
    if |b| > 0 {
      assert s[|s| - 1] == b[|b| - 1];
      assert s[..|s| - 1] == a + ([c] + b[..|b| - 1]);
      LastIndexByteAppend(a, c, b[..|b| - 1]);
    }
  }

  /** A successful split of `a + ":" + b`, with a colon-free `b`, takes `b`
      as the port. */
  lemma {:induction false} PortAfterLastColon(a: string, b: string)
    requires ':' !in b && SplitHostPort(a + ([':'] + b)).Success?
    ensures SplitHostPort(a + ([':'] + b)).value.1 == b
  {
    var s := a + ([':'] + b);
    LastIndexByteAppend(a, ':', b);
    assert s[|a| + 1..] == b;
  }

  /** Index of the first `c` in `s`, or -1: Go's `bytealg.IndexByteString`. */
  function IndexByte(s: string, c: char): (r: int)
    ensures -1 <= r < |s|
    ensures r == -1 <==> c !in s
    ensures r >= 0 ==> s[r] == c && c !in s[..r]
  {
    if |s| == 0 then -1
    else if s[0] == c then 0
    else
      var r := IndexByte(s[1..], c);
      assert s == [s[0]] + s[1..];
      assert r >= 0 ==> s[..r + 1] == [s[0]] + s[1..][..r];
      if r == -1 then -1 else r + 1
  }

  /** `net.SplitHostPort`: splits "host:port", "[host]:port" or
      "[host%zone]:port" into host and port. The port starts after the last
      colon; a host outside brackets may hold no colon, and brackets may
      appear nowhere but around the host. */
  function SplitHostPort(hostport: string): (r: Result<(string, string), AddrReason>)
    ensures ':' !in hostport ==> r == Failure(MissingPort)
    ensures r.Success? ==>
      var (host, port) := r.value;
      && ':' !in port && '[' !in port && ']' !in port
      && (hostport == host + ":" + port || hostport == "[" + host + "]:" + port)
    ensures r.Success? && hostport[0] != '[' ==> hostport == r.value.0 + ":" + r.value.1
    ensures r.Success? ==> r.value.1 == hostport[LastIndexByte(hostport, ':') + 1..]
  {
    var i := LastIndexByte(hostport, ':');
    if i < 0 then Failure(MissingPort)
    else if hostport[0] == '[' then SplitBracketed(hostport, i)
    else
      var host := hostport[..i];
      if IndexByte(host, ':') >= 0 then Failure(TooManyColons)
      else CheckBrackets(hostport, host, 0, 0, i)
  }

  /** The branch of `SplitHostPort` for "[host]:port": the host is what the
      brackets enclose, and the closing bracket must be followed by the
      last colon. */
  function SplitBracketed(hostport: string, i: nat): (r: Result<(string, string), AddrReason>)
    requires i < |hostport| && hostport[0] == '[' && hostport[i] == ':' && ':' !in hostport[i + 1..]
    ensures r.Success? ==>
      var (host, port) := r.value;
      && ':' !in port && '[' !in port && ']' !in port
      && hostport == "[" + host + "]:" + port && port == hostport[i + 1..]
  {
    var end := IndexByte(hostport, ']');
    if end < 0 then Failure(MissingCloseBracket)
    else if end + 1 == |hostport| then Failure(MissingPort)
    else if end + 1 != i then
      (if hostport[end + 1] == ':' then Failure(TooManyColons) else Failure(MissingPort))
    else
      var r := CheckBrackets(hostport, hostport[1..end], 1, end + 1, i);
      assert r.Success? ==> hostport == "[" + hostport[1..end] + "]:" + hostport[i + 1..];
      r
  }

  /** The common tail of `SplitHostPort`: no '[' from `j` on, no ']' from
      `k` on, and the port is what follows the colon at `i`. */
  function CheckBrackets(hostport: string, host: string, j: nat, k: nat, i: nat)
    : (r: Result<(string, string), AddrReason>)
    requires j <= k <= i < |hostport| && hostport[i] == ':' && ':' !in hostport[i + 1..]
    ensures r.Success? <==> '[' !in hostport[j..] && ']' !in hostport[k..]
    ensures r.Success? ==> r.value == (host, hostport[i + 1..])
  {
    if IndexByte(hostport[j..], '[') >= 0 then Failure(UnexpectedOpenBracket)
    else if IndexByte(hostport[k..], ']') >= 0 then Failure(UnexpectedCloseBracket)
    else Success((host, hostport[i + 1..]))
  }

  /** For an address not starting with '[', splitting succeeds exactly when
      it holds one colon and no bracket at all. */
  lemma {:induction false} SplitHostPortPlain(hostport: string)
    requires hostport == [] || hostport[0] != '['
    ensures SplitHostPort(hostport).Success? <==>
      multiset(hostport)[':'] == 1 && '[' !in hostport && ']' !in hostport
  {
    var i := LastIndexByte(hostport, ':');
    if i >= 0 {
      assert hostport == hostport[..i] + [':'] + hostport[i + 1..];
      assert multiset(hostport)[':'] == multiset(hostport[..i])[':'] + 1 + multiset(hostport[i + 1..])[':'];
      assert multiset(hostport[i + 1..])[':'] == 0;
      assert (multiset(hostport[..i])[':'] == 0) <==> ':' !in hostport[..i];
    }
  }

  /** A plain "host:port" with a colon-free, bracket-free host and port
      splits back into exactly that host and port. */
  lemma SplitHostPortOfJoin(host: string, port: string)
    requires ':' !in host && '[' !in host && ']' !in host
    requires ':' !in port && '[' !in port && ']' !in port
    requires host == [] || host[0] != '['
    ensures SplitHostPort(host + ":" + port) == Success((host, port))
  {
    var hp := host + ":" + port;
    assert hp[..|host|] == host;
    assert hp[|host| + 1..] == port;
    assert hp[|host|] == ':';
    assert LastIndexByte(hp, ':') == |host|;
  }
}

=== FILE: gostrings.dfy ===
/** The few functions of Go's `strings` package that the adapter relies on,
    over strings seen as sequences of Unicode code points (Go's strings are
    byte strings; for valid UTF-8 the two views agree, since every
    separator used here is ASCII). */
module GoStrings {
  import opened Wrappers

  /** Go's `unicode.IsSpace`: the Latin-1 spaces plus the other code points
      with the Unicode White_Space property. */
  predicate IsSpace(c: char) {
    || c == ' ' || c == '\t' || c == '\n' || c == '\U{000B}' || c == '\U{000C}' || c == '\r'
    || c == '\U{0085}' || c == '\U{00A0}' || c == '\U{1680}'
    || ('\U{2000}' <= c <= '\U{200A}')
    || c == '\U{2028}' || c == '\U{2029}' || c == '\U{202F}' || c == '\U{205F}' || c == '\U{3000}'
  }

  /** Every character of `s` is white space (vacuously so for ""). */
  predicate AllSpace(s: string) {
    forall i :: 0 <= i < |s| ==> IsSpace(s[i])
  }

  /** `s` neither starts nor ends with white space. */
  predicate Trimmed(s: string) {
    s == [] || (!IsSpace(s[0]) && !IsSpace(s[|s| - 1]))
  }

  /** Drops the leading white space of `s`. */
  function TrimLeft(s: string): (r: string)
    ensures |r| <= |s| && r == s[|s| - |r|..]
    ensures AllSpace(s[..|s| - |r|])
    ensures r == [] || !IsSpace(r[0])
  {
    if |s| > 0 && IsSpace(s[0]) then TrimLeft(s[1..]) else s
  }

  /** Drops the trailing white space of `s`. */
  function TrimRight(s: string): (r: string)
    ensures |r| <= |s| && r == s[..|r|]
    ensures AllSpace(s[|r|..])
    ensures r == [] || !IsSpace(r[|r| - 1])
  {
    if |s| > 0 && IsSpace(s[|s| - 1]) then TrimRight(s[..|s| - 1]) else s
  }

  /** `r` is `s` with a white-space prefix of length `lo` and a white-space
      suffix removed. */
  ghost predicate SpaceFramed(s: string, r: string, lo: int) {
    && 0 <= lo && lo + |r| <= |s|
    && s[lo..lo + |r|] == r
    && AllSpace(s[..lo]) && AllSpace(s[lo + |r|..])
  }

  /** Go's `strings.TrimSpace`: `s` without its leading and trailing white
      space. */
  function TrimSpace(s: string): (r: string)
    ensures Trimmed(r)
    ensures exists lo :: SpaceFramed(s, r, lo)
    ensures r == [] <==> AllSpace(s)
  {
    var l := TrimLeft(s);
    var r := TrimRight(l);
    TrimmedPartsFrame(s, l, r);
    r
  }

  /** Removing a white-space prefix and then a white-space suffix frames
      what is left in white space, and leaves nothing exactly when `s` was
      all white space. */
  lemma TrimmedPartsFrame(s: string, l: string, r: string)
    requires |l| <= |s| && l == s[|s| - |l|..] && AllSpace(s[..|s| - |l|])
    requires |r| <= |l| && r == l[..|r|] && AllSpace(l[|r|..])
    requires r == [] || !IsSpace(r[0])
    ensures SpaceFramed(s, r, |s| - |l|)
    ensures r == [] <==> AllSpace(s)
  {
    var lo := |s| - |l|;
    assert s[lo..][..|r|] == s[lo..lo + |r|];
    assert s[lo + |r|..] == l[|r|..];
    if r == [] {
      forall i | 0 <= i < |s| ensures IsSpace(s[i]) {
        if i < lo {
          assert s[i] == s[..lo][i];
        } else {
          assert s[i] == l[|r|..][i - lo];
        }
      }
    } else {
      assert s[lo] == r[0];
    }
  }


  /** A string without edge white space is its own trimming. */
  lemma {:induction false} TrimSpaceOfTrimmed(s: string)
    requires Trimmed(s)
    ensures TrimSpace(s) == s
  {
    assert TrimLeft(s) == s;
    assert TrimRight(s) == s;
  }

  /** Trimming is idempotent. */
  lemma TrimSpaceIdempotent(s: string)
    ensures TrimSpace(TrimSpace(s)) == TrimSpace(s)
  {
    TrimSpaceOfTrimmed(TrimSpace(s));
  }

  /** Go's `strings.HasPrefix`. */
  predicate HasPrefix(s: string, prefix: string)
    ensures HasPrefix(s, prefix) <==> OccursAt(s, prefix, 0)
  {
    |prefix| <= |s| && s[..|prefix|] == prefix
  }

  /** Go's `strings.HasSuffix`. */
  predicate HasSuffix(s: string, suffix: string)
    ensures HasSuffix(s, suffix) <==> OccursAt(s, suffix, |s| - |suffix|)
  {
    |suffix| <= |s| && s[|s| - |suffix|..] == suffix
  }

  /** `sub` occurs in `s` starting at index `i`. */
  ghost predicate OccursAt(s: string, sub: string, i: int) {
    0 <= i && i + |sub| <= |s| && s[i..i + |sub|] == sub
  }

  /** The first occurrence of `sub` in `s` at or after index `k`. */
  function IndexFrom(s: string, sub: string, k: nat): (r: Option<nat>)
    ensures r.Some? ==> k <= r.value && OccursAt(s, sub, r.value)
    ensures r.Some? ==> forall j :: k <= j < r.value ==> !OccursAt(s, sub, j)
    ensures r.None? ==> forall j :: k <= j ==> !OccursAt(s, sub, j)
    decreases |s| - k
  {
    if k + |sub| > |s| then None
    else if s[k..k + |sub|] == sub then Some(k)
    else IndexFrom(s, sub, k + 1)
  }

  /** Go's `strings.Index`, with `None` for Go's -1. */
  function Index(s: string, sub: string): (r: Option<nat>)
    ensures r.Some? ==> OccursAt(s, sub, r.value)
    ensures r.Some? ==> forall j :: 0 <= j < r.value ==> !OccursAt(s, sub, j)
    ensures r.None? ==> forall j :: !OccursAt(s, sub, j)
  {
    IndexFrom(s, sub, 0)
  }

  /** Go's `strings.Contains`. */
  predicate Contains(s: string, sub: string)
    ensures Contains(s, sub) <==> exists i :: OccursAt(s, sub, i)
  {
    Index(s, sub).Some?
  }

  /** Concatenates `parts` with `sep` between neighbours: Go's `strings.Join`. */
  function Join(parts: seq<string>, sep: string): string
    requires |parts| >= 1
  {
    if |parts| == 1 then parts[0] else parts[0] + sep + Join(parts[1..], sep)
  }

  /** The text before the first occurrence of `sep` does not contain `sep`. */
  lemma FirstPieceClean(s: string, sep: string, i: nat)
    requires |sep| > 0 && OccursAt(s, sep, i)
    requires forall j :: 0 <= j < i ==> !OccursAt(s, sep, j)
    ensures !Contains(s[..i], sep)
  {
    forall j ensures !OccursAt(s[..i], sep, j) {
      if 0 <= j && j + |sep| <= i {
        assert s[..i][j..j + |sep|] == s[j..j + |sep|];
        assert !OccursAt(s, sep, j);
      }
    }
  }

  /** Prepending the first piece keeps `Join` inverse to splitting. */
  lemma SplitStep(s: string, sep: string, i: nat, rest: seq<string>)
    requires |rest| >= 1 && OccursAt(s, sep, i)
    requires Join(rest, sep) == s[i + |sep|..]
    ensures Join([s[..i]] + rest, sep) == s
  {
    var r := [s[..i]] + rest;
    assert r[0] == s[..i] && r[1..] == rest;
    assert Join(r, sep) == s[..i] + sep + s[i + |sep|..];
    assert s[..i] + s[i..i + |sep|] + s[i + |sep|..] == s by {
      assert s[..i] + s[i..i + |sep|] == s[..i + |sep|];
    }
  }

  /** Go's `strings.Split` for a non-empty separator: the pieces of `s`
      between the non-overlapping occurrences of `sep`, left to right. */
  function Split(s: string, sep: string): (r: seq<string>)
    requires |sep| > 0
    ensures |r| >= 1
    ensures Join(r, sep) == s
    ensures forall i :: 0 <= i < |r| ==> !Contains(r[i], sep)
    ensures |r| == 1 <==> !Contains(s, sep)
    ensures |r| > 1 ==> Index(s, sep) == Some(|r[0]|)
    decreases |s|
  {
    match Index(s, sep)
    case None => [s]
    case Some(i) =>
      var rest := Split(s[i + |sep|..], sep);
      FirstPieceClean(s, sep, i);
      SplitStep(s, sep, i, rest);
      [s[..i]] + rest
  }
}

=== FILE: ldap.dfy ===
/** The connection side of the adapter: endpoint normalisation, the session
    life cycle and the configuration test. */
module Ldap {
  import opened Wrappers
  import opened GoStrings
  import opened GoNet
  import opened Models
  import opened Directory

  /** The separator between scheme and host-port in a directory URL. */
  const SchemeSep := "://"

  /** The two protocols a session can speak. */
  predicate ValidProtocol(p: string) {
    p == "ldap" || p == "ldaps"
  }

  /** A normalised endpoint: a protocol and a host-port. */
  datatype Endpoint = Endpoint(protocol: string, hostport: string) {
    /** The URL text `protocol://hostport`. */
    function Url(): string {
      protocol + SchemeSep + hostport
    }
  }

  /** The port number of a protocol: 389 for `ldap`, 636 for `ldaps`. */
  function DefaultPortNumber(protocol: string): (n: string)
    requires ValidProtocol(protocol)
    ensures ':' !in n && '/' !in n
    ensures protocol == "ldap" ==> n == "389"
    ensures protocol == "ldaps" ==> n == "636"
    ensures n == LdapsPort <==> protocol == "ldaps"
  {
    if protocol == "ldap" then "389" else "636"
  }

  /** The port appended when the configured URL names none. */
  function DefaultPort(protocol: string): (suffix: string)
    requires ValidProtocol(protocol)
    ensures protocol == "ldap" ==> suffix == ":389"
    ensures protocol == "ldaps" ==> suffix == ":636"
  {
    [':'] + DefaultPortNumber(protocol)
  }

  /** The explicit port that forces the secure protocol. */
  const LdapsPort := "636"

  /** First step of `formatURL`: the declared scheme and the host-port after
      it, or the whole text as host-port under `ldap` when no scheme is
      declared. Text after a second "://" is dropped, as `strings.Split`
      followed by taking the second piece does. */
  function SchemeAndHostPort(u: string): (r: Result<Endpoint, Error>)
    ensures !Contains(u, SchemeSep) ==> r == Success(Endpoint("ldap", u))
    ensures Contains(u, SchemeSep) ==>
      (r.Success? <==> ValidProtocol(Split(u, SchemeSep)[0]))
    ensures r.Failure? ==> r.error == UnknownProtocol
    ensures r.Success? ==> ValidProtocol(r.value.protocol) && !Contains(r.value.hostport, SchemeSep)
    ensures r.Success? && Contains(u, SchemeSep) ==> HasPrefix(u, r.value.Url())
    ensures r.Success? && Contains(u, SchemeSep) ==>
      u == r.value.Url() || HasPrefix(u, r.value.Url() + SchemeSep)
  {
    if Contains(u, SchemeSep) then
      var parts := Split(u, SchemeSep);
      var protocol := parts[0];
      var hostport := parts[1];
      if !(protocol == "ldap" || protocol == "ldaps") then Failure(UnknownProtocol)
      else
        JoinHasFirstTwo(parts, SchemeSep);
        Success(Endpoint(protocol, hostport))
    else
      Success(Endpoint("ldap", u))
  }

  /** The joined text starts with its first two pieces and the separator
      between them. */
  lemma JoinHasFirstTwo(parts: seq<string>, sep: string)
    requires |parts| >= 2
    ensures HasPrefix(Join(parts, sep), parts[0] + sep + parts[1])
    ensures |parts| == 2 ==> Join(parts, sep) == parts[0] + sep + parts[1]
    ensures |parts| > 2 ==> HasPrefix(Join(parts, sep), parts[0] + sep + parts[1] + sep)
  {
    var rest := parts[1..];
    assert rest[0] == parts[1];
    if |rest| > 1 {
      var tail := Join(rest[1..], sep);
      assert Join(parts, sep) == parts[0] + sep + (parts[1] + sep + tail);
      assert Join(parts, sep) == (parts[0] + sep + parts[1] + sep) + tail;
    }
  }

  /** Second step of `formatURL`: an explicit port must split off; the port
      "636" forces `ldaps`; without a colon the default port of the
      protocol is appended. */
  function ResolvePort(ep: Endpoint): (r: Result<Endpoint, Error>)
    requires ValidProtocol(ep.protocol)
    ensures ':' !in ep.hostport ==>
      r == Success(Endpoint(ep.protocol, ep.hostport + DefaultPort(ep.protocol)))
    ensures ':' in ep.hostport ==> (r.Success? <==> SplitHostPort(ep.hostport).Success?)
    ensures ':' in ep.hostport && r.Success? ==>
      r.value.hostport == ep.hostport
      && (SplitHostPort(ep.hostport).value.1 == LdapsPort ==> r.value.protocol == "ldaps")
      && (SplitHostPort(ep.hostport).value.1 != LdapsPort ==> r.value.protocol == ep.protocol)
    ensures r.Failure? ==> r.error == IllegalUrl(SplitHostPort(ep.hostport).error)
    ensures r.Success? ==> ValidProtocol(r.value.protocol) && ':' in r.value.hostport
    ensures r.Success? && !Contains(ep.hostport, SchemeSep) ==> !Contains(r.value.hostport, SchemeSep)
  {
    if ':' in ep.hostport then
      match SplitHostPort(ep.hostport)
      case Failure(reason) => Failure(IllegalUrl(reason))
      case Success((_, port)) =>
        if port == LdapsPort then Success(Endpoint("ldaps", ep.hostport))
        else Success(ep)
    else
      var hp := ep.hostport + DefaultPort(ep.protocol);
      assert hp[|ep.hostport|] == ':';
      AppendedPortHasNoSep(ep.hostport, DefaultPort(ep.protocol));
      Success(Endpoint(ep.protocol, hp))
  }

  /** `formatURL` as an endpoint: URL-syntax check (an oracle), scheme, then
      port. */
  function FormatEndpoint(u: string, urlParses: string -> bool): (r: Result<Endpoint, Error>)
    ensures !urlParses(u) ==> r == Failure(UrlParse)
    ensures r.Success? ==> ValidProtocol(r.value.protocol) && ':' in r.value.hostport
    ensures r.Success? ==> !Contains(r.value.hostport, SchemeSep)
  {
    if !urlParses(u) then Failure(UrlParse)
    else
      match SchemeAndHostPort(u)
      case Failure(e) => Failure(e)
      case Success(ep) => ResolvePort(ep)
  }

  /** Appending ":389" or ":636" to a colon-free host-port cannot create a
      "://". */
  lemma AppendedPortHasNoSep(h: string, suffix: string)
    requires ':' !in h
    requires suffix == ":389" || suffix == ":636"
    ensures !Contains(h + suffix, SchemeSep)
  {
    var s := h + suffix;
    forall j | 0 <= j ensures !OccursAt(s, SchemeSep, j) {
      assert j + 3 <= |s| ==> s[j..j + 3][0] == s[j] && s[j..j + 3][1] == s[j + 1];
      assert j < |h| ==> s[j] == h[j];
      assert |h| < j + 1 < |s| ==> s[j + 1] == suffix[j + 1 - |h|];
    }
  }

  /** In `p + "://" + rest` with a colon-free `p`, the first "://" is the
      one right after `p`. */
  lemma FirstSepAfterColonFree(p: string, rest: string)
    requires ':' !in p
    ensures Index(p + SchemeSep + rest, SchemeSep) == Some(|p|)
  {
    var s := p + SchemeSep + rest;
    assert s[|p|..|p| + 3] == SchemeSep;
    assert OccursAt(s, SchemeSep, |p|);
    forall j | 0 <= j < |p| ensures !OccursAt(s, SchemeSep, j) {
      assert s[j..j + 3][0] == s[j] == p[j];
    }
  }

  /** A colon-free scheme is the first piece of splitting at "://". */
  lemma {:induction false} FirstPieceIsScheme(p: string, rest: string)
    requires ':' !in p
    ensures Split(p + SchemeSep + rest, SchemeSep)[0] == p
    ensures Split(p + SchemeSep + rest, SchemeSep)[1..] == Split(rest, SchemeSep)
  {
    var s := p + SchemeSep + rest;
    FirstSepAfterColonFree(p, rest);
    assert s[..|p|] == p;
    assert s[|p| + 3..] == rest;
  }

  /** Splitting a normalised URL at "://" gives back exactly its protocol and
      host-port. */
  lemma {:induction false} SplitOfUrl(ep: Endpoint)
    requires ValidProtocol(ep.protocol) && !Contains(ep.hostport, SchemeSep)
    ensures Split(ep.Url(), SchemeSep) == [ep.protocol, ep.hostport]
  {
    FirstPieceIsScheme(ep.protocol, ep.hostport);
  }

  /** Go's `formatURL`: the normalised endpoint as URL text. */
  function FormatURL(u: string, urlParses: string -> bool): (r: Result<string, Error>)
    ensures r.Success? <==> FormatEndpoint(u, urlParses).Success?
    ensures r.Failure? ==> r.error == FormatEndpoint(u, urlParses).error
    ensures r.Success? ==> r.value == FormatEndpoint(u, urlParses).value.Url()
  {
    match FormatEndpoint(u, urlParses)
    case Failure(e) => Failure(e)
    case Success(ep) => Success(ep.Url())
  }

  /** On success `formatURL` yields `protocol://hostport` with protocol
      `ldap` or `ldaps` and a colon in the host-port, and splitting it at
      "://" recovers exactly those two parts. */
  lemma SplitOfFormattedURL(u: string, urlParses: string -> bool)
    requires FormatURL(u, urlParses).Success?
    ensures
      var ep := FormatEndpoint(u, urlParses).value;
      var parts := Split(FormatURL(u, urlParses).value, SchemeSep);
      && parts == [ep.protocol, ep.hostport]
      && ValidProtocol(parts[0]) && ':' in parts[1]
      && FormatURL(u, urlParses).value == parts[0] + SchemeSep + parts[1]
  {
    SplitOfUrl(FormatEndpoint(u, urlParses).value);
  }

  /** Text without a slash contains no "://". */
  lemma NoSlashNoSep(s: string)
    requires '/' !in s
    ensures !Contains(s, SchemeSep)
  {
    forall j ensures !OccursAt(s, SchemeSep, j) {
      if 0 <= j && j + 3 <= |s| {
        assert s[j + 1] in s;
        assert s[j..j + 3][1] == s[j + 1] != '/' == SchemeSep[1];
      }
    }
  }

  /** A URL without "://" and without a colon is an `ldap` host with the
      standard port appended. */
  lemma BareHostGetsLdapDefault(u: string, urlParses: string -> bool)
    requires urlParses(u) && !Contains(u, SchemeSep) && ':' !in u
    ensures FormatEndpoint(u, urlParses) == Success(Endpoint("ldap", u + ":389"))
  {
  }

  /** A URL without "://" is read as host-port under `ldap`; with an
      explicit port that splits off, it keeps its text, and only the port
      "636" turns it into `ldaps`. */
  lemma NoSchemeMeansLdap(u: string, urlParses: string -> bool)
    requires urlParses(u) && !Contains(u, SchemeSep) && SplitHostPort(u).Success?
    ensures SplitHostPort(u).value.1 == LdapsPort ==> FormatEndpoint(u, urlParses) == Success(Endpoint("ldaps", u))
    ensures SplitHostPort(u).value.1 != LdapsPort ==> FormatEndpoint(u, urlParses) == Success(Endpoint("ldap", u))
  {
  }

  /** A declared colon-free scheme other than `ldap` and `ldaps` is refused,
      whatever follows it. */
  lemma UnknownSchemeRejected(scheme: string, rest: string, urlParses: string -> bool)
    requires ':' !in scheme && !ValidProtocol(scheme)
    requires urlParses(scheme + SchemeSep + rest)
    ensures FormatEndpoint(scheme + SchemeSep + rest, urlParses) == Failure(UnknownProtocol)
  {
    FirstPieceIsScheme(scheme, rest);
    assert OccursAt(scheme + SchemeSep + rest, SchemeSep, |scheme|);
  }

  /** Under a declared scheme, the host-port is the text between the first
      and any second "://". */
  lemma DeclaredScheme(scheme: string, hostport: string, urlParses: string -> bool)
    requires ValidProtocol(scheme) && !Contains(hostport, SchemeSep)
    requires urlParses(scheme + SchemeSep + hostport)
    ensures FormatEndpoint(scheme + SchemeSep + hostport, urlParses) == ResolvePort(Endpoint(scheme, hostport))
  {
    SplitOfUrl(Endpoint(scheme, hostport));
    FirstPieceIsScheme(scheme, hostport);
    assert OccursAt(scheme + SchemeSep + hostport, SchemeSep, |scheme|);
  }

  /** A declared scheme with a port-less host gets that scheme's default
      port: 389 for `ldap`, 636 for `ldaps`. */
  lemma DeclaredSchemeGetsItsDefaultPort(scheme: string, host: string, urlParses: string -> bool)
    requires ValidProtocol(scheme) && ':' !in host && !Contains(host, SchemeSep)
    requires urlParses(scheme + SchemeSep + host)
    ensures scheme == "ldap" ==> FormatEndpoint(scheme + SchemeSep + host, urlParses) == Success(Endpoint("ldap", host + ":389"))
    ensures scheme == "ldaps" ==> FormatEndpoint(scheme + SchemeSep + host, urlParses) == Success(Endpoint("ldaps", host + ":636"))
  {
    DeclaredScheme(scheme, host, urlParses);
  }

  /** Resolving a plain "host:port" keeps the text; only the port "636"
      changes the protocol, to `ldaps`. */
  lemma ResolveExplicitPort(protocol: string, host: string, port: string)
    requires ValidProtocol(protocol)
    requires ':' !in host && '[' !in host && ']' !in host
    requires ':' !in port && '[' !in port && ']' !in port
    ensures ResolvePort(Endpoint(protocol, host + ":" + port))
         == Success(Endpoint(if port == LdapsPort then "ldaps" else protocol, host + ":" + port))
  {
    var hp := host + ":" + port;
    SplitHostPortOfJoin(host, port);
    assert hp[|host|] == ':';
  }

  /** An explicit port "636" forces `ldaps` even under a declared `ldap`;
      any other explicit port keeps the declared protocol and the text. */
  lemma ExplicitPortUnderScheme(scheme: string, host: string, port: string, urlParses: string -> bool)
    requires ValidProtocol(scheme)
    requires ':' !in host && '[' !in host && ']' !in host
    requires ':' !in port && '[' !in port && ']' !in port
    requires !Contains(host + ":" + port, SchemeSep)
    requires urlParses(scheme + SchemeSep + (host + ":" + port))
    ensures port == LdapsPort ==>
      FormatEndpoint(scheme + SchemeSep + (host + ":" + port), urlParses) == Success(Endpoint("ldaps", host + ":" + port))
    ensures port != LdapsPort ==>
      FormatEndpoint(scheme + SchemeSep + (host + ":" + port), urlParses) == Success(Endpoint(scheme, host + ":" + port))
  {
    DeclaredScheme(scheme, host + ":" + port, urlParses);
    ResolveExplicitPort(scheme, host, port);
  }

  /** Example: "foo://host" is refused. */
  lemma FormatExampleUnknownScheme(urlParses: string -> bool)
    requires urlParses("foo://host")
    ensures FormatURL("foo://host", urlParses) == Failure(UnknownProtocol)
  {
    assert "foo://host" == "foo" + SchemeSep + "host";
    UnknownSchemeRejected("foo", "host", urlParses);
  }

  /** The port step is idempotent once its result splits: a port "636"
      already came with `ldaps`, and an appended port is the protocol's
      own default. */
  lemma {:induction false} ResolvePortIdempotent(ep: Endpoint)
    requires ValidProtocol(ep.protocol) && ResolvePort(ep).Success?
    requires SplitHostPort(ResolvePort(ep).value.hostport).Success?
    ensures ResolvePort(ResolvePort(ep).value) == ResolvePort(ep)
  {
    if ':' !in ep.hostport {
      AppendedPortKept(ep.protocol, ep.hostport);
    } else {
      ExplicitPortKept(ep);
    }
  }

  /** The protocol's own default port, once appended, is kept by the port
      step. */
  lemma {:induction false} AppendedPortKept(protocol: string, h: string)
    requires ValidProtocol(protocol) && ':' !in h
    requires SplitHostPort(h + DefaultPort(protocol)).Success?
    ensures ResolvePort(Endpoint(protocol, h + DefaultPort(protocol)))
         == Success(Endpoint(protocol, h + DefaultPort(protocol)))
  {
    assert (h + DefaultPort(protocol))[|h|] == ':';
    PortAfterLastColon(h, DefaultPortNumber(protocol));
  }

  /** An explicit port, once resolved, is resolved to the same endpoint
      again. */
  lemma {:induction false} ExplicitPortKept(ep: Endpoint)
    requires ValidProtocol(ep.protocol) && ':' in ep.hostport && ResolvePort(ep).Success?
    ensures ResolvePort(ResolvePort(ep).value) == ResolvePort(ep)
  {
    var r := ResolvePort(ep).value;
    assert r.hostport == ep.hostport;
  }

  /** A normalised endpoint whose host-port splits is left alone by the port
      step. */
  lemma {:induction false} ResolvedEndpointIsFixed(u: string, urlParses: string -> bool)
    requires FormatEndpoint(u, urlParses).Success?
    requires SplitHostPort(FormatEndpoint(u, urlParses).value.hostport).Success?
    ensures ResolvePort(FormatEndpoint(u, urlParses).value) == FormatEndpoint(u, urlParses)
  {
    var first := SchemeAndHostPort(u).value;
    assert FormatEndpoint(u, urlParses) == ResolvePort(first);
    ResolvePortIdempotent(first);
  }

  /** A normalised URL is normalised again to itself, provided its
      host-port splits. */
  lemma {:induction false} FormatURLIdempotent(u: string, urlParses: string -> bool)
    requires FormatURL(u, urlParses).Success?
    requires urlParses(FormatURL(u, urlParses).value)
    requires SplitHostPort(FormatEndpoint(u, urlParses).value.hostport).Success?
    ensures FormatURL(FormatURL(u, urlParses).value, urlParses) == FormatURL(u, urlParses)
  {
    var ep := FormatEndpoint(u, urlParses).value;
    assert FormatURL(u, urlParses).value == ep.protocol + SchemeSep + ep.hostport;
    DeclaredScheme(ep.protocol, ep.hostport, urlParses);
    ResolvedEndpointIsFixed(u, urlParses);
  }

  /** The host-port proviso is needed: a port-less host holding '[' (but
      not starting with it) gets ":389" appended, and the result no longer
      splits, so normalising the output fails. */
  lemma {:induction false} BracketedHostNotIdempotent(h: string, urlParses: string -> bool)
    requires ':' !in h && '/' !in h && '[' in h && h[0] != '['
    requires urlParses(h) && urlParses(Endpoint("ldap", h + ":389").Url())
    ensures FormatEndpoint(h, urlParses) == Success(Endpoint("ldap", h + ":389"))
    ensures FormatEndpoint(Endpoint("ldap", h + ":389").Url(), urlParses).Failure?
  {
    NoSlashNoSep(h);
    var hp := h + ":389";
    assert '/' !in hp by {
      assert forall k :: 0 <= k < |hp| ==> hp[k] == (if k < |h| then h[k] else ":389"[k - |h|]);
    }
    NoSlashNoSep(hp);
    assert hp[0] == h[0] && '[' in hp;
    SplitHostPortPlain(hp);
    DeclaredScheme("ldap", hp, urlParses);
  }

  /** Whether a session holds a connection, and whether it has been closed. */
  datatype ConnState = NoConn | Live(conn: Conn) | Released(conn: Conn)

  /** A session: the configuration it was made with and its connection. */
  datatype Session = Session(basic: LdapConf, group: GroupConf, state: ConnState)

  /** `NewSession`: a session with no connection yet. */
  function NewSession(basic: LdapConf, group: GroupConf): (s: Session)
    ensures s.state.NoConn? && s.basic == basic && s.group == group
  {
    Session(basic, group, NoConn)
  }

  /** The outcome of `Open`: the session afterwards, the error, and the
      directory calls made. */
  datatype Opened = Opened(session: Session, err: Option<Error>, trace: seq<Event>)

  /** The dial request `Open` is expected to issue for an endpoint: TLS
      exactly for `ldaps`, naming the host and skipping verification exactly
      when `VerifyCert` is off. */
  ghost predicate DialFits(req: DialRequest, ep: Endpoint, host: string, conf: LdapConf) {
    && req.hostport == ep.hostport
    && req.timeoutSeconds == conf.connectionTimeout
    && (req.Tls? <==> ep.protocol == "ldaps")
    && (req.Tls? ==> req.serverName == host && req.insecureSkipVerify == !conf.verifyCert)
  }

  /** Issues one dial request and records the connection it yields. */
  function Dial(s: Session, req: DialRequest, client: Client): (r: Opened)
    ensures r.trace == [Dialed(req)]
    ensures NoBind(r.trace) && NoSearch(r.trace)
    ensures r.err.None? <==> client.dial(req).Success?
    ensures r.err.Some? ==> r.session == s && r.err.value == client.dial(req).error
    ensures r.err.None? ==> r.session == s.(state := Live(client.dial(req).value))
  {
    match client.dial(req)
    case Failure(e) => Opened(s, Some(e), [Dialed(req)])
    case Success(c) => Opened(s.(state := Live(c)), None, [Dialed(req)])
  }

  /** The part of `Session.Open` after the URL is split: take the host off
      the host-port, then dial plainly for `ldap` or over TLS for `ldaps`.
      The Go switch has no default case, so any other protocol would return
      no error and no connection. */
  function DialParts(s: Session, protocol: string, hostport: string, client: Client): (r: Opened)
    ensures r.err.Some? ==> r.session == s
    ensures r.trace == [] || (|r.trace| == 1 && r.trace[0].Dialed?)
    ensures NoBind(r.trace) && NoSearch(r.trace)
    ensures SplitHostPort(hostport).Failure? ==>
      r == Opened(s, Some(Addr(SplitHostPort(hostport).error)), [])
    ensures SplitHostPort(hostport).Success? && ValidProtocol(protocol) ==>
      && |r.trace| == 1 && r.trace[0].Dialed?
      && DialFits(r.trace[0].request, Endpoint(protocol, hostport), SplitHostPort(hostport).value.0, s.basic)
      && r == Dial(s, r.trace[0].request, client)
    ensures SplitHostPort(hostport).Success? && !ValidProtocol(protocol) ==> r == Opened(s, None, [])
  {
    match SplitHostPort(hostport)
    case Failure(reason) => Opened(s, Some(Addr(reason)), [])
    case Success((host, _)) =>
      if protocol == "ldap" then
        Dial(s, Plain(hostport, s.basic.connectionTimeout), client)
      else if protocol == "ldaps" then
        Dial(s, Tls(hostport, host, !s.basic.verifyCert, s.basic.connectionTimeout), client)
      else
        Opened(s, None, [])
  }

  /** `Session.Open`: normalise the URL, split it at "://" and dial. A
      failure leaves the session as it was; a success always holds a live
      connection, since a normalised URL always reaches one of the two dial
      branches. */
  function Open(s: Session, client: Client): (r: Opened)
    ensures r.session.basic == s.basic && r.session.group == s.group
    ensures r.err.Some? ==> r.session == s
    ensures r.err.None? ==> r.session.state.Live? && |r.trace| == 1
    ensures r.trace == [] || (|r.trace| == 1 && r.trace[0].Dialed?)
    ensures NoBind(r.trace) && NoSearch(r.trace)
  {
    match FormatURL(s.basic.url, client.urlParses)
    case Failure(e) => Opened(s, Some(e), [])
    case Success(ldapURL) =>
      SplitOfFormattedURL(s.basic.url, client.urlParses);
      var parts := Split(ldapURL, SchemeSep);
      DialParts(s, parts[0], parts[1], client)
  }

  /** What `Open` dials: nothing when the URL does not normalise or the
      host-port does not split; otherwise exactly one request for the
      normalised host-port, over TLS exactly for `ldaps`, with the host as
      server name and verification skipped exactly when `VerifyCert` is
      off. The session connects exactly when that dial succeeds. */
  lemma OpenDialsByProtocol(s: Session, client: Client)
    ensures FormatEndpoint(s.basic.url, client.urlParses).Failure? ==>
      Open(s, client) == Opened(s, Some(FormatEndpoint(s.basic.url, client.urlParses).error), [])
    ensures FormatEndpoint(s.basic.url, client.urlParses).Success? ==>
      var ep := FormatEndpoint(s.basic.url, client.urlParses).value;
      var r := Open(s, client);
      && (SplitHostPort(ep.hostport).Failure? ==>
            r == Opened(s, Some(Addr(SplitHostPort(ep.hostport).error)), []))
      && (SplitHostPort(ep.hostport).Success? ==>
            && |r.trace| == 1
            && DialFits(r.trace[0].request, ep, SplitHostPort(ep.hostport).value.0, s.basic)
            && r == Dial(s, r.trace[0].request, client))
  {
    if FormatEndpoint(s.basic.url, client.urlParses).Success? {
      SplitOfFormattedURL(s.basic.url, client.urlParses);
    }
  }

  /** `Session.Close`: closes the connection if there is one. Closing an
      already closed go-ldap connection again is harmless, so only the
      absence of a connection makes this a no-op. */
  function Close(s: Session): (r: (Session, seq<Event>))
    ensures r.0.basic == s.basic && r.0.group == s.group
    ensures s.state.NoConn? ==> r.0 == s && r.1 == []
    ensures !s.state.NoConn? ==> r.0.state == Released(s.state.conn) && r.1 == [ClosedConn(s.state.conn)]
    ensures !r.0.state.Live?
  {
    match s.state
    case NoConn => (s, [])
    case Live(c) => (s.(state := Released(c)), [ClosedConn(c)])
    case Released(c) => (s, [ClosedConn(c)])
  }

  /** A session that never connected is still unconnected after a failed
      `Open`, so closing it then does nothing and calls nothing. */
  lemma CloseAfterFailedOpen(s: Session, client: Client)
    requires s.state.NoConn? && Open(s, client).err.Some?
    ensures Close(Open(s, client).session) == (s, [])
  {
    assert Open(s, client).session == s;
  }

  /** Closing twice leaves the session as closing once does. */
  lemma CloseIdempotent(s: Session)
    ensures Close(Close(s).0).0 == Close(s).0
    ensures !s.state.NoConn? ==> Close(Close(s).0).1 == Close(s).1
  {
  }

  /** `Session.Bind`: authenticate the connection as `dn`. Every caller
      binds only after a successful `Open`, so the session has a
      connection. */
  function Bind(s: Session, dn: string, password: string, client: Client): (r: (Option<Error>, seq<Event>))
    requires !s.state.NoConn?
    ensures r.1 == [BoundAs(s.state.conn, dn, password)]
    ensures r.0 == client.bind(s.state.conn, dn, password)
  {
    (client.bind(s.state.conn, dn, password), [BoundAs(s.state.conn, dn, password)])
  }

  /** `Session.SearchUser` (its body is not part of this model): the entries
      the directory returns for `username` on the session's connection. */
  function SearchUser(s: Session, username: string, client: Client): (r: (Result<seq<User>, Error>, seq<Event>))
    requires !s.state.NoConn?
    ensures r.1 == [Searched(s.state.conn, username)]
    ensures r.0 == client.searchUser(s.state.conn, username)
  {
    (client.searchUser(s.state.conn, username), [Searched(s.state.conn, username)])
  }

  /** The verdict of `TestConfig`: success flag, error, and the calls made. */
  datatype TestOutcome = TestOutcome(ok: bool, err: Option<Error>, trace: seq<Event>)

  /** The session `TestConfig` opens: the configuration with an empty group
      configuration. */
  function TestSession(cfg: LdapConf, client: Client): (r: Opened)
    ensures r.session.basic == cfg && r.session.group == EmptyGroupConf
    ensures r.err.Some? ==> r.session.state.NoConn?
    ensures r.trace == [] || (|r.trace| == 1 && r.trace[0].Dialed?)
    ensures r.err.None? ==> r.session.state.Live? && |r.trace| == 1 && r.trace[0].Dialed?
  {
    Open(NewSession(cfg, EmptyGroupConf), client)
  }

  /** The error `TestConfig` reports when the session does not open: a
      timeout for a network-coded directory error, a failed ping otherwise. */
  function ClassifyOpenError(e: Error): (c: Error)
    ensures c == ServerTimeout || c == PingFail
    ensures c == ServerTimeout <==> IsErrorWithCode(e, ErrorNetwork)
  {
    if IsErrorWithCode(e, ErrorNetwork) then ServerTimeout else PingFail
  }

  /** The part of `TestConfig` after a successful open, with the deferred
      close at the end of the trace. */
  function CheckSearchIdentity(ts: Session, client: Client): (r: TestOutcome)
    requires ts.state.Live?
    ensures r.ok <==> r.err.None?
    ensures |r.trace| >= 1 && r.trace[|r.trace| - 1] == ClosedConn(ts.state.conn)
    ensures NoSearch(r.trace)
    ensures ts.basic.searchDn == "" ==>
      r.err == Some(EmptySearchDN) && r.trace == [ClosedConn(ts.state.conn)] && NoBind(r.trace)
    ensures ts.basic.searchDn != "" ==>
      var bindErr := client.bind(ts.state.conn, ts.basic.searchDn, ts.basic.searchPassword);
      && r.trace == [BoundAs(ts.state.conn, ts.basic.searchDn, ts.basic.searchPassword), ClosedConn(ts.state.conn)]
      && (r.err == Some(InvalidCredential) <==>
            bindErr.Some? && IsErrorWithCode(bindErr.value, LDAPResultInvalidCredentials))
      && (r.err.Some? ==> r.err == Some(InvalidCredential))
  {
    var (_, closing) := Close(ts);
    if ts.basic.searchDn == "" then TestOutcome(false, Some(EmptySearchDN), closing)
    else
      var (err, binding) := Bind(ts, ts.basic.searchDn, ts.basic.searchPassword, client);
      if err.Some? && IsErrorWithCode(err.value, LDAPResultInvalidCredentials) then
        TestOutcome(false, Some(InvalidCredential), binding + closing)
      else
        TestOutcome(true, None, binding + closing)
  }

  /** `TestConfig`: open a throw-away session and try to bind as the search
      identity, classifying what goes wrong. The session is closed on every
      path after it opened. */
  function TestConfig(cfg: LdapConf, client: Client): (r: TestOutcome)
    ensures r.ok <==> r.err.None?
    ensures TestSession(cfg, client).err.Some? ==>
      && r.err == Some(ClassifyOpenError(TestSession(cfg, client).err.value))
      && r.trace == TestSession(cfg, client).trace
    ensures TestSession(cfg, client).err.None? ==>
      var ts := TestSession(cfg, client).session;
      && r.err == CheckSearchIdentity(ts, client).err
      && r.trace == TestSession(cfg, client).trace + CheckSearchIdentity(ts, client).trace
  {
    FinishTest(TestSession(cfg, client), client)
  }

  /** What `TestConfig` makes of the outcome of opening its session. */
  function FinishTest(o: Opened, client: Client): (r: TestOutcome)
    requires o.err.None? ==> o.session.state.Live?
    ensures r.ok <==> r.err.None?
    ensures o.err.Some? ==> r.err == Some(ClassifyOpenError(o.err.value)) && r.trace == o.trace
    ensures o.err.None? ==>
      var cfg := o.session.basic;
      var c := o.session.state.conn;
      var bindErr := client.bind(c, cfg.searchDn, cfg.searchPassword);
      var invalid := bindErr.Some? && IsErrorWithCode(bindErr.value, LDAPResultInvalidCredentials);
      && |r.trace| == |o.trace| + (if cfg.searchDn == "" then 1 else 2)
      && r.trace[..|o.trace|] == o.trace && r.trace[|r.trace| - 1] == ClosedConn(c)
      && (cfg.searchDn == "" ==> r.err == Some(EmptySearchDN) && NoBind(r.trace[|o.trace|..]))
      && (cfg.searchDn != "" ==> r.trace[|o.trace|] == BoundAs(c, cfg.searchDn, cfg.searchPassword))
      && (cfg.searchDn != "" && invalid ==> r.err == Some(InvalidCredential))
      && (cfg.searchDn != "" && !invalid ==> r.err.None?)
  {
    if o.err.Some? then
      TestOutcome(false, Some(ClassifyOpenError(o.err.value)), o.trace)
    else
      var rest := CheckSearchIdentity(o.session, client);
      rest.(trace := o.trace + rest.trace)
  }

  /** `TestConfig` never searches, and binds only after the session opened
      with a non-empty search DN. */
  lemma TestConfigBindsOnlyWithSearchDn(cfg: LdapConf, client: Client)
    ensures NoSearch(TestConfig(cfg, client).trace)
    ensures TestSession(cfg, client).err.Some? || cfg.searchDn == "" ==> NoBind(TestConfig(cfg, client).trace)
  {
    var o := TestSession(cfg, client);
    if o.err.None? {
      var rest := CheckSearchIdentity(o.session, client);
      NoSearchConcat(o.trace, rest.trace);
      NoBindConcat(o.trace, rest.trace);
    }
  }

  /** Spelled out for the session having opened: an empty search DN is
      reported as such, an invalid-credentials bind as an invalid
      credential, and any other bind error counts as success. The last call
      closes the connection. */
  lemma TestConfigAfterOpen(cfg: LdapConf, client: Client)
    requires TestSession(cfg, client).err.None?
    ensures
      var c := TestSession(cfg, client).session.state.conn;
      var r := TestConfig(cfg, client);
      var bindErr := client.bind(c, cfg.searchDn, cfg.searchPassword);
      && r.trace[|r.trace| - 1] == ClosedConn(c)
      && (cfg.searchDn == "" ==> r == TestOutcome(false, Some(EmptySearchDN), [Dialed(r.trace[0].request), ClosedConn(c)]))
      && (cfg.searchDn != "" && bindErr.Some? && IsErrorWithCode(bindErr.value, LDAPResultInvalidCredentials) ==>
            !r.ok && r.err == Some(InvalidCredential))
      && (cfg.searchDn != "" && !(bindErr.Some? && IsErrorWithCode(bindErr.value, LDAPResultInvalidCredentials)) ==>
            r.ok && r.err.None?)
  {
    var o := TestSession(cfg, client);
    var r := FinishTest(o, client);
    assert o.session.basic == cfg;
    assert r.trace[0] == o.trace[0] by {
      assert r.trace[..|o.trace|] == o.trace;
    }
    if cfg.searchDn == "" {
      assert r.trace == [r.trace[0], r.trace[1]];
    }
  }
}

=== FILE: models.dfy ===
/** The configuration records of the adapter and the user record it returns. */
module Models {

  /** Connection and search settings of one LDAP server (`ldap_*` fields). */
  datatype LdapConf = LdapConf(
    url: string,
    searchDn: string,
    searchPassword: string,
    baseDn: string,
    filter: string,
    uid: string,
    scope: int,
    connectionTimeout: int,
    verifyCert: bool)

  /** Group search settings (`ldap_group_*` fields). */
  datatype GroupConf = GroupConf(
    baseDn: string,
    filter: string,
    nameAttribute: string,
    searchScope: int,
    adminDn: string,
    membershipAttribute: string)

  /** Go's zero value `GroupConf{}`. */
  const EmptyGroupConf := GroupConf("", "", "", 0, "", "")

  /** A directory user, as produced by the search and returned on login. */
  datatype User = User(
    username: string,
    realname: string,
    email: string,
    dn: string,
    groupDnList: seq<string>)

  /** Go's zero value `User{}`. */
  const EmptyUser := User("", "", "", "", [])

  /** The login request: a claimed principal and its password. */
  datatype AuthModel = AuthModel(principal: string, password: string)
}

=== FILE: wrappers.dfy ===
/** Failure-carrying result types used throughout the model in place of Go's
    `(value, error)` return pairs and nil pointers. */
module Wrappers {

  /** A value that may be absent (a nil pointer or a nil `error` in Go). */
  datatype Option<+T> = None | Some(value: T)

  /** Either a successful value or an error, for Go's `(T, error)` returns. */
  datatype Result<+T, +E> = Success(value: T) | Failure(error: E)
}
